=== FILE: README.md ===
# Flashcard review session, modelled in Dafny

This project models the review session of the "Quizlett Clone" flashcard app:
the `Card` component in `frontend/src/components/Card.jsx`. The component takes
a list of vocabulary cards, a study mode and an optional score sink. It shows one
card at a time and lets the user turn it over, move to the next card, and score
it as again, hard, good or easy.

The model has six modules:

- `Cards` (`cards.dfy`) holds the card record and the `cards` property. That
  property is either an array of cards or any other value.
- `FisherYates` (`fisher_yates.dfy`) is the shuffle behind random mode. The
  random source becomes a draw sequence: step `i` reads `draws[i]`, which must lie
  in `[0, i]`. `Run` is a recursive reference shuffle. `Shuffle` is the loop the
  component runs, over a copy of the input. The module proves that the shuffle only
  rearranges the cards, that every arrangement is reachable, and that on distinct
  cards different draw sequences give different orders. Together these say that
  fitting draw sequences and orderings correspond one-to-one.
- `Ordering` (`ordering.dfy`) is the `order` memo. A non-array gives no cards. Any
  mode other than `"random"` keeps the input as it is. `"random"` shuffles a copy.
- `Cursor` (`cursor.dfy`) is the session state `(order, index, flipped)`. It
  defines `next`, `flip`, repeated `next`, the card shown and the position indicator.
- `Keyboard` (`keyboard.dfy`) is the key handler. It holds the digit-to-score table
  and returns the new state, whether the default action is suppressed, and the sink
  call a key starts.
- `Review` (`review.dfy`) is the mounted session as a whole, driven one event at a
  time. The events are key presses, the flip, next and score buttons, the settling
  of a sink call (resolved or rejected), and a change of `cards` or `mode`.

Some external dependencies become parameters:

- Randomness becomes the draw sequence.
- The asynchronous sink becomes two events: a recorded call (card and score), and
  later a `Settle` event that picks any in-flight call and an outcome.
- Sink presence becomes a boolean.

Four behaviours of the code shape the model:

- When `cards` or `mode` changes, the order is recomputed, but `index` and
  `flipped` are not reset (`Card.jsx:10-24`). After the list shrinks, the cursor
  can lie past the end of the new order (`Review.ReloadKeepsCursor`).
- `.finally(() => next())` runs `next` whether the sink resolves or rejects. It
  also passes a rejection on to a promise that nothing handles (`Card.jsx:45`).
  The score buttons do not handle the sink's promise at all (`Card.jsx:116-119`).
  The model counts one unhandled rejection per rejected call.
- A digit key scores whatever `order[index]` holds. The only check is that a card
  is there (`Card.jsx:45`).
- The `next` that runs on settlement is the closure from the render in which the
  key was pressed. It wraps by that render's order length, not by the current one
  (`InFlight.wrapLen`, `Cursor.Advance`). With no reload in between, the two
  lengths are the same (`Review.Coherent`).

## Model

| member | source | states |
|---|---|---|
| FisherYates.Swap | frontend/src/components/Card.jsx:19 | the destructuring swap exchanges the two positions and leaves every other position alone |
| FisherYates.Run | frontend/src/components/Card.jsx:17-20 | the reference shuffle: the steps `n - 1` down to 1, each swapping position `i` with `d[i]`, keep the list's length; its behaviour is stated by the `Run` lemmas below |
| FisherYates.SwapPermutes | frontend/src/components/Card.jsx:19 | a swap keeps the same elements, each as many times |
| FisherYates.RunPermutes | frontend/src/components/Card.jsx:17-20 | any number of shuffle steps only rearranges the list: same multiset of cards |
| FisherYates.Shuffled | frontend/src/components/Card.jsx:16-21 | the full shuffle has the input's length and multiset of cards |
| FisherYates.RunKeepsUndrawn | frontend/src/components/Card.jsx:17 | steps run only from the current position downward, so positions at or above the step count are left untouched |
| FisherYates.RunPlacesDrawn | frontend/src/components/Card.jsx:18-19 | the last position of a run ends up holding the element its draw selected, and later steps never move it |
| FisherYates.RunReadsPrefix | frontend/src/components/Card.jsx:17-18 | a run of `n` steps depends only on the first `n` draws |
| FisherYates.Shuffle | frontend/src/components/Card.jsx:16-21 | the loop over a copy, from the last index down to 1, computes the reference shuffle, a permutation of the input; the input itself is a value and stays as it was |
| FisherYates.RunReachesPrefix | frontend/src/components/Card.jsx:17-20 | for a target that agrees beyond position `k` and rearranges the first `k`, it builds draws within range that make the shuffle produce the target |
| FisherYates.ShuffleReachesEveryPermutation | frontend/src/components/Card.jsx:15-21 | every permutation of the input is produced by some in-range draw sequence |
| FisherYates.RunInjective | frontend/src/components/Card.jsx:17-20 | on distinct cards, two draw sequences with the same result agree on every draw used |
| FisherYates.ShuffleInjective | frontend/src/components/Card.jsx:15-21 | on distinct cards, two in-range draw sequences with the same order are equal, so draws and orders correspond one-to-one |
| Ordering.DeriveOrder | frontend/src/components/Card.jsx:13-24 | a non-array gives an empty order; an array gives an order of the same length and multiset; any mode other than "random" gives the input unchanged position by position |
| Ordering.RandomModeReachesEveryArrangement | frontend/src/components/Card.jsx:15-21 | in random mode every arrangement of the cards is a possible order |
| Ordering.RandomModeDrawsDetermineOrder | frontend/src/components/Card.jsx:15-21 | in random mode on distinct cards, the order determines the draws |
| Cursor.Modulus | frontend/src/components/Card.jsx:30 | `order.length \|\| 1` is exactly 1 for an empty order and the length otherwise, so it is never 0 |
| Cursor.Mount | frontend/src/components/Card.jsx:10-11 | a mounted session starts on position 0, front face up, with a cursor in range |
| Cursor.Advance | frontend/src/components/Card.jsx:28-31 | advancing with the closure's length `len` clears `flipped`, keeps the order, and sets the cursor to `(index + 1) % len` (0 when `len` is 0). This holds even when the cursor lies past `len`, as in a settlement after a reload. The cursor moves by one before the end and wraps to 0 at the end |
| Cursor.Next | frontend/src/components/Card.jsx:28-31 | `next` always clears `flipped`, keeps the order, sets the cursor to `(index + 1) % len` on a non-empty order (one card on, or the first after the last), and leaves the cursor in range even if it was out of range before |
| Cursor.NextOnSingleCardStays | frontend/src/components/Card.jsx:30 | with one card or none, `next` keeps the cursor at 0 |
| Cursor.Flip | frontend/src/components/Card.jsx:33-35 | `flip` negates `flipped` and changes neither the order nor the cursor |
| Cursor.FlipTwiceRestores | frontend/src/components/Card.jsx:33-35 | two flips in a row restore the original state |
| Cursor.NextForgetsFlip | frontend/src/components/Card.jsx:29 | `next` gives the same state whether or not the card was turned over |
| Cursor.Steps | frontend/src/components/Card.jsx:28-31 | repeated `next` keeps the order, and after at least one call leaves the card front up with the cursor in range |
| Cursor.StepsAdd | frontend/src/components/Card.jsx:28-31 | `a + b` calls of `next` equal `a` calls followed by `b` calls |
| Cursor.StepsWithinRound | frontend/src/components/Card.jsx:30 | up to `len` calls of `next` move a valid cursor forward by the number of calls, less `len` once it has passed the last card |
| Cursor.FullRoundReturns | frontend/src/components/Card.jsx:30 | `len` calls of `next` bring a valid cursor back to its starting card, front up |
| Cursor.MountVisitsInOrder | frontend/src/components/Card.jsx:30 | from a fresh mount, `k < len` calls reach position `k` and `len` calls return to 0 |
| Cursor.StepsPeriodic | frontend/src/components/Card.jsx:30 | after the first call, a further `len` calls of `next` change nothing |
| Cursor.CurrentCard | frontend/src/components/Card.jsx:26 | a card is shown exactly when the cursor lies inside the order, and it is the card at the cursor; a valid cursor over a non-empty order always shows one |
| Cursor.Indicator | frontend/src/components/Card.jsx:89 | the indicator reads the 1-based position `index + 1` and the order length; for a valid cursor the position lies between 1 and that length |
| Cursor.IndicatorFollowsNext | frontend/src/components/Card.jsx:89 | after `next`, the indicator shows the following position, or 1 after the last; the total stays the same |
| Cursor.ValidRenders | frontend/src/components/Card.jsx:52-72 | a cursor in range always renders: the placeholder for an empty order, or a present card |
| Keyboard.Label | frontend/src/components/Card.jsx:44 | each score reaches the sink as the entry of the table `again`, `hard`, `good`, `easy` at the position of its shortcut digit, so the label and the key agree |
| Keyboard.DigitLabels | frontend/src/components/Card.jsx:43-44 | the keys `1`, `2`, `3` and `4` select the labels `again`, `hard`, `good` and `easy` respectively |
| Keyboard.KeyOf | frontend/src/components/Card.jsx:116-119 | each score's shortcut is a single digit from 1 to 4 |
| Keyboard.ScoreOfKey | frontend/src/components/Card.jsx:43-44 | a key selects a score exactly when it is one of "1" to "4" |
| Keyboard.ScoreOfKeyInvertsKeyOf | frontend/src/components/Card.jsx:43-44 | the digit table and the button shortcuts agree: a key maps to a score if and only if it is that score's digit |
| Keyboard.LabelsDistinct | frontend/src/components/Card.jsx:44 | different scores reach the sink under different labels |
| Keyboard.OnKey | frontend/src/components/Card.jsx:39-47 | with no cards every key is ignored. Otherwise: Space suppresses the default and flips; `n`/`N` runs `next` (after the flip when the key is both, which leaves the card front up one place on); any other key leaves the state alone. A sink call starts exactly when a sink is present, a card is shown and the key is a digit 1-4, and it carries the shown card and that digit's score. The order never changes |
| Keyboard.ScoreKeyLeavesCursor | frontend/src/components/Card.jsx:43-46 | a digit key by itself neither moves the cursor nor turns the card |
| Keyboard.ScoreKeyWithoutSinkIsInert | frontend/src/components/Card.jsx:45 | without a sink a digit key has no effect at all |
| Review.MountWorld | frontend/src/components/Card.jsx:9-24 | mounting derives the order, starts front up on position 0, has no calls, and satisfies both session invariants |
| Review.Invoke | frontend/src/components/Card.jsx:45 | starting a sink call records it once, adds one in-flight entry that remembers the current order length, and leaves the cursor alone |
| Review.Step | frontend/src/components/Card.jsx:13-119 | a key press applies the handler's new state and appends exactly the call it starts; the flip and next buttons run `flip` and `next` and change nothing else; a reload changes only the order, keeping the cursor, the face, the calls and every pending call with the order length it recorded. Every event keeps the calls log append-only, growing by at most one, records nothing without a sink, and keeps `calls = settled + in flight`; only a rejected settlement adds an unhandled rejection |
| Review.StepKeepsCoherent | frontend/src/components/Card.jsx:28-31 | every event except a reload keeps the cursor in range and every pending `next` wrapping by the current order length |
| Review.KeysInertOnEmptyOrder | frontend/src/components/Card.jsx:40 | with an empty order every key leaves the whole session unchanged |
| Review.ScoreKeyStartsOneCall | frontend/src/components/Card.jsx:43-45 | with a sink and a card shown, a digit key starts exactly one call, with that card and score, and does not move the cursor yet |
| Review.ScoreKeyWithoutSinkChangesNothing | frontend/src/components/Card.jsx:45 | without a sink a digit key leaves the whole session unchanged |
| Review.SettleOfKeyCallAdvancesOnce | frontend/src/components/Card.jsx:45 | settling any keyboard call runs exactly one `next`, wrapping by the order length recorded when its key was pressed (even after a reload), and removes exactly that call from the in-flight calls, so it cannot advance twice; with no reload in between, that is `next` on the current order |
| Review.SettleIgnoresOutcome | frontend/src/components/Card.jsx:45 | resolution and rejection lead to the same session, calls and in-flight list |
| Review.ScoreKeyRoundTrip | frontend/src/components/Card.jsx:43-45 | whenever a card is shown and a sink is present, even with older calls from before a reload still pending: a digit key and then the settling of its call, with either outcome, leave the sink having seen (shown card, score) and the session exactly one `next` on, with nothing of it left in flight |
| Review.ScoreButtonNeverAdvances | frontend/src/components/Card.jsx:116-119 | a score button sends the shown card with the fixed score, and moves the cursor neither on click nor on settlement |
| Review.ReloadKeepsCursor | frontend/src/components/Card.jsx:10-24 | a change of input recomputes the order but keeps the cursor and the face. Past the end no card is shown, and the render fails exactly when the new order is non-empty and no longer than the kept position |
| Review.ThreeCardsTwoNexts | frontend/src/components/Card.jsx:42 | with three cards in sequential order, `n` twice shows the third card, front up |
| Review.SingleCardScoredGood | frontend/src/components/Card.jsx:43-45 | with one card, `3` sends (card, good); after settling, the cursor is on 0, front up, with nothing in flight |
| Review.RejectingSinkStillAdvances | frontend/src/components/Card.jsx:45 | with a rejecting sink, `1` still moves on to the next card after settling, and leaves one unhandled rejection |
| Review.StaleSettlementWrapsByOldLength | frontend/src/components/Card.jsx:45 | a keyboard call started on two cards and settled after the list grew to five wraps by 2, not 5: from the fourth card it lands on the first |

## Left out

- Rendering (`Card.jsx:52-143`): the JSX faces, the empty-order placeholder and the `ScoreButton` markup are presentation. What the model keeps from them is the position indicator (`Cursor.Indicator`) and the digits shown as button shortcuts (`Keyboard.KeyOf`).
- Buttons: the flip, next and score buttons exist only while a card is rendered. The empty-order placeholder has none (`Card.jsx:52-58`). The model does not restrict `FlipClick` and `NextClick` to a rendered card. They run `flip` and `next` unconditionally, as their handlers do. `ScoreClick` with no card shown is a no-op.
- Render failure and unmount: if a reload leaves the cursor past the end of a non-empty order, the render reads `card.partOfSpeech` on a missing card and throws (`Card.jsx:72`). React then unmounts the component and removes the key listener (`Card.jsx:49`), so the session ends there. The model has no rendering or unmounting. It states when this happens (`Cursor.Renders`, `Review.ReloadKeepsCursor`), but `Review.Step` still accepts events in that state, which the source would no longer deliver.
- Keydown listener (`Card.jsx:48-50`): adding and removing the `window` listener is effect plumbing. The model treats one handler as active for the lifetime of a `World`.
- Randomness (`Card.jsx:18`): `Math.random` and the floating-point `Math.floor` are replaced by an in-range draw sequence. Uniformity is a probabilistic statement, so it is not stated. Its combinatorial core is: in-range draw sequences and orderings of distinct cards correspond one-to-one (`FisherYates.ShuffleReachesEveryPermutation`, `FisherYates.ShuffleInjective`).
- Promise timing and overlapping calls: settlement is a discrete event that may pick any in-flight call in any order. Real time and microtask ordering are not modelled.
- Falsy elements: an element of `cards` that is itself `null` or `undefined` fails the `card &&` check. Cards here are always records, so that check reduces to "a card is shown".
- Sink edge cases: a sink that returns something other than a promise would make `.finally` throw. This is not modelled. A sink that changes while mounted is not modelled either: sink presence is fixed per `World`.
- Numbers: `index` is an unbounded natural number. JavaScript numbers cannot overflow at any reachable count.
- `frontend/src/App.js` (fetch polling on a timer, tab routing) and `frontend/src/components/Navbar.jsx` (a card count badge) are network, timer and presentation code outside the session.

=== FILE: cards.dfy ===
/** The records a review session is given to present. The session itself never
    looks inside a card: these fields are carried so that the model speaks of the
    same records the component renders on its two faces. */
module Cards {

  datatype Option<+T> = None | Some(value: T)

  /** A usage example on the back face: an English sentence and an optional translation. */
  datatype Example = Example(en: string, tr: Option<string>)

  /** One vocabulary card. Everything except `term` may be absent. */
  datatype Card = Card(
    term: string,
    partOfSpeech: Option<string>,
    definitionEn: Option<string>,
    definitionTr: Option<string>,
    ipa: Option<string>,
    collocations: Option<seq<string>>,
    examples: Option<seq<Example>>)

  /** The `cards` property as the session receives it: an array of cards, or any
      other value (undefined, null, an object), which the session reads as no cards. */
  datatype CardsInput = Array(items: seq<Card>) | NotArray
}

=== FILE: cursor.dfy ===
/** The state a mounted review session owns, and the two transitions on it:
    advancing to the next card and turning the current card over. */
module Cursor {
  import opened Cards

  /** The derived order, the position in it, and whether the back face is
      showing. `index` starts at 0 and only ever becomes `(index + 1) % m` for a
      positive `m`, so it is never negative; it is not reset when the order is
      recomputed, so it may lie beyond a shorter new order. */
  datatype Session = Session(order: seq<Card>, index: nat, flipped: bool)

  /** `order.length || 1`: the modulus the cursor wraps by, an empty order counting as 1. */
  function Modulus(len: nat): (m: nat)
    ensures m >= 1
    ensures len == 0 ==> m == 1
    ensures len > 0 ==> m == len
  {
    if len == 0 then 1 else len
  }

  /** The cursor addresses a card of the order, or is 0 when there is none. */
  predicate Valid(s: Session) {
    s.index < Modulus(|s.order|)
  }

  /** A session as it is first mounted: the first card, front face up. */
  function Mount(order: seq<Card>): (s: Session)
    ensures Valid(s) && s.order == order
    ensures s.index == 0 && !s.flipped
  {
    Session(order, 0, false)
  }

  /** The update `next` performs, wrapping by the order length `len` its closure
      saw; the face is turned back to the front whatever it was. */
  function Advance(s: Session, len: nat): (r: Session)
    ensures r.order == s.order && !r.flipped
    ensures r.index < Modulus(len)
    ensures len == 0 ==> r.index == 0
    ensures len > 0 ==> r.index == (s.index + 1) % len
    ensures s.index + 1 < len ==> r.index == s.index + 1
    ensures s.index + 1 == len ==> r.index == 0
  {
    Session(s.order, (s.index + 1) % Modulus(len), false)
  }

  /** `next` on the session's own order: one card on, wrapping to the first after
      the last, back to the front face. Afterwards the cursor is valid even if it
      was not before. */
  function Next(s: Session): (r: Session)
    ensures r.order == s.order && !r.flipped && Valid(r)
    ensures |s.order| > 0 ==> r.index == (s.index + 1) % |s.order|
    ensures s.index + 1 < |s.order| ==> r.index == s.index + 1
    ensures s.index + 1 == |s.order| ==> r.index == 0
  {
    Advance(s, |s.order|)
  }

  /** With a single card (or none) `next` keeps the cursor on position 0. */
  lemma NextOnSingleCardStays(s: Session)
    requires |s.order| <= 1
    ensures Next(s).index == 0 && Next(s).order == s.order
  {
  }

  /** `flip`: the other face, same card. Allowed on an empty order as well. */
  function Flip(s: Session): (r: Session)
    ensures r.flipped == !s.flipped
    ensures r.order == s.order && r.index == s.index
  {
    s.(flipped := !s.flipped)
  }

  /** Turning a card over twice shows the face it started with. */
  lemma FlipTwiceRestores(s: Session)
    ensures Flip(Flip(s)) == s
  {
  }

  /** Whether the card was turned over makes no difference to `next`. */
  lemma NextForgetsFlip(s: Session)
    ensures Next(Flip(s)) == Next(s)
  {
  }

  /** The state after `k` calls of `next`. */
  function Steps(s: Session, k: nat): (r: Session)
    ensures r.order == s.order
    ensures k > 0 ==> !r.flipped && Valid(r)
    ensures k == 0 ==> r == s
    decreases k
  {
    if k == 0 then s else Steps(Next(s), k - 1)
  }

  /** `a + b` calls of `next` are `a` calls followed by `b` calls. */
  lemma {:induction false} StepsAdd(s: Session, a: nat, b: nat)
    ensures Steps(s, a + b) == Steps(Steps(s, a), b)
    decreases a
  {
    if a > 0 {
      StepsAdd(Next(s), a - 1, b);
    }
  }

  /** Up to a full round, `k` calls of `next` move a valid cursor `k` places,
      wrapping once past the last card. */
  lemma {:induction false} StepsWithinRound(s: Session, k: nat)
    requires Valid(s) && 1 <= |s.order| && k <= |s.order|
    ensures s.index + k < |s.order| ==> Steps(s, k).index == s.index + k
    ensures s.index + k >= |s.order| ==> Steps(s, k).index == s.index + k - |s.order|
    decreases k
  {
    if k > 0 {
      StepsWithinRound(Next(s), k - 1);
    }
  }

  /** A full round of `|order|` calls of `next` returns the cursor to where it
      started, front face up. */
  lemma FullRoundReturns(s: Session)
    requires Valid(s) && |s.order| >= 1
    ensures Steps(s, |s.order|).index == s.index
    ensures !Steps(s, |s.order|).flipped
  {
    StepsWithinRound(s, |s.order|);
  }

  /** From a fresh mount, `next` visits the cards in order: after `k < |order|`
      calls the cursor is at position `k`, and after `|order|` calls it is back at 0. */
  lemma MountVisitsInOrder(order: seq<Card>, k: nat)
    requires 1 <= |order| && k <= |order|
    ensures k < |order| ==> Steps(Mount(order), k).index == k
    ensures k == |order| ==> Steps(Mount(order), k).index == 0
  {
    StepsWithinRound(Mount(order), k);
  }

  /** `next` is periodic: after the first call, `|order|` further calls change nothing. */
  lemma StepsPeriodic(s: Session, k: nat)
    requires Valid(s) && |s.order| >= 1 && k >= 1
    ensures Steps(s, k + |s.order|) == Steps(s, k)
  {
    var n := |s.order|;
    var round := Steps(s, n);
    FullRoundReturns(s);
    assert round == s.(flipped := false);
    StepsAdd(s, n, k);
    StepsAdd(round, 1, k - 1);
    StepsAdd(s, 1, k - 1);
    NextForgetsFlip(s.(flipped := false));
    assert Next(round) == Next(s);
  }

  /** The card shown, if any: `order[index]` when the cursor addresses one. */
  function CurrentCard(s: Session): (c: Option<Card>)
    ensures c.Some? <==> s.index < |s.order|
    ensures c.Some? ==> c.value == s.order[s.index]
    ensures Valid(s) && |s.order| > 0 ==> c.Some?
  {
    if s.index < |s.order| then Some(s.order[s.index]) else None
  }

  /** The position indicator, "index+1 / length"; on a valid cursor over a
      non-empty order it reads a position between 1 and the length. */
  function Indicator(s: Session): (shown: (nat, nat))
    ensures shown.0 == s.index + 1 && shown.1 == |s.order|
    ensures Valid(s) && |s.order| > 0 ==> 1 <= shown.0 <= shown.1
  {
    (s.index + 1, |s.order|)
  }

  /** `next` counts the indicator up by one, and from the last position back to 1. */
  lemma IndicatorFollowsNext(s: Session)
    requires Valid(s) && |s.order| > 0
    ensures Indicator(s).0 < Indicator(s).1 ==> Indicator(Next(s)).0 == Indicator(s).0 + 1
    ensures Indicator(s).0 == Indicator(s).1 ==> Indicator(Next(s)).0 == 1
    ensures Indicator(Next(s)).1 == Indicator(s).1
  {
  }

  /** The component can render the session: either the placeholder for an empty
      order, or the card at the cursor. A cursor beyond a non-empty order makes
      the render read the fields of a missing card and fail. */
  predicate Renders(s: Session) {
    |s.order| == 0 || s.index < |s.order|
  }

  /** A valid cursor always renders. */
  lemma ValidRenders(s: Session)
    requires Valid(s)
    ensures Renders(s)
  {
  }
}

=== FILE: fisher_yates.dfy ===
/** The Fisher–Yates shuffle behind the session's random study order, with the
    random source taken out: instead of asking a generator for a number at step
    `i`, the shuffle reads `draws[i]`, which must lie in `[0, i]` exactly as
    `floor(random() * (i + 1))` does. Steps run from the last position down to 1;
    `draws[0]` is never read. */
module FisherYates {

  /** `s` with the elements at `i` and `j` exchanged. */
  function Swap<T>(s: seq<T>, i: nat, j: nat): (r: seq<T>)
    requires i < |s| && j < |s|
    ensures |r| == |s|
    ensures r[i] == s[j] && r[j] == s[i]
    ensures forall k :: 0 <= k < |s| && k != i && k != j ==> r[k] == s[k]
  {
    s[i := s[j]][j := s[i]]
  }

  /** A swap only rearranges. */
  lemma SwapPermutes<T>(s: seq<T>, i: nat, j: nat)
    requires i < |s| && j < |s|
    ensures multiset(Swap(s, i, j)) == multiset(s)
  {
  }

  /** Every draw lies in the range the generator can produce at its step. */
  predicate Bounded(draws: seq<nat>) {
    forall i :: 0 <= i < |draws| ==> draws[i] <= i
  }

  /** A draw sequence for shuffling a list of `n` cards: one draw per position. */
  predicate DrawsFit(draws: seq<nat>, n: nat) {
    |draws| == n && Bounded(draws)
  }

  /** No element occurs twice. */
  predicate Distinct<T(==)>(s: seq<T>) {
    forall x, y :: 0 <= x < y < |s| ==> s[x] != s[y]
  }

  /** The reference shuffle: the swaps of steps `n - 1` down to 1 on `a`, step `i`
      exchanging positions `i` and `d[i]`. */
  function Run<T>(a: seq<T>, d: seq<nat>, n: nat): (r: seq<T>)
    requires n <= |a| && n <= |d| && Bounded(d)
    ensures |r| == |a|
    decreases n
  {
    if n <= 1 then a
    else Run(Swap(a, n - 1, d[n - 1]), d, n - 1)
  }

  /** The shuffle only rearranges: the result has the same elements, each as often. */
  lemma {:induction false} RunPermutes<T>(a: seq<T>, d: seq<nat>, n: nat)
    requires n <= |a| && n <= |d| && Bounded(d)
    ensures multiset(Run(a, d, n)) == multiset(a)
    decreases n
  {
    if n > 1 {
      SwapPermutes(a, n - 1, d[n - 1]);
      RunPermutes(Swap(a, n - 1, d[n - 1]), d, n - 1);
    }
  }

  /** The whole shuffle of a list by a fitting draw sequence. */
  function Shuffled<T>(a: seq<T>, draws: seq<nat>): (r: seq<T>)
    requires DrawsFit(draws, |a|)
    ensures |r| == |a| && multiset(r) == multiset(a)
  {
    RunPermutes(a, draws, |a|);
    Run(a, draws, |a|)
  }

  /** Positions at or beyond `n` are never touched by the first `n` steps. */
  lemma {:induction false} RunKeepsUndrawn<T>(a: seq<T>, d: seq<nat>, n: nat, t: nat)
    requires n <= |a| && n <= |d| && Bounded(d) && n <= t < |a|
    ensures Run(a, d, n)[t] == a[t]
    decreases n
  {
    if n > 1 {
      RunKeepsUndrawn(Swap(a, n - 1, d[n - 1]), d, n - 1, t);
    }
  }

  /** The step at position `n - 1` is final: it holds the element drawn for it. */
  lemma RunPlacesDrawn<T>(a: seq<T>, d: seq<nat>, n: nat)
    requires 2 <= n <= |a| && n <= |d| && Bounded(d)
    ensures Run(a, d, n)[n - 1] == a[d[n - 1]]
  {
    RunKeepsUndrawn(Swap(a, n - 1, d[n - 1]), d, n - 1, n - 1);
  }

  /** Only the first `n` draws matter to the first `n` steps. */
  lemma {:induction false} RunReadsPrefix<T>(a: seq<T>, d1: seq<nat>, d2: seq<nat>, n: nat)
    requires n <= |a| && n <= |d1| && n <= |d2| && Bounded(d1) && Bounded(d2)
    requires forall t :: 0 <= t < n ==> d1[t] == d2[t]
    ensures Run(a, d1, n) == Run(a, d2, n)
    decreases n
  {
    if n > 1 {
      RunReadsPrefix(Swap(a, n - 1, d1[n - 1]), d1, d2, n - 1);
    }
  }

  /** The shuffle as the component runs it: a loop over a copy of the input,
      swapping position `i` with position `draws[i]` for `i` from the last index
      down to 1. The input value is never changed; the copy is returned. */
  method Shuffle<T>(cards: seq<T>, draws: seq<nat>) returns (shuffled: seq<T>)
    requires DrawsFit(draws, |cards|)
    ensures shuffled == Shuffled(cards, draws)
    ensures |shuffled| == |cards| && multiset(shuffled) == multiset(cards)
  {
    shuffled := cards;
    var i := |cards|;
    while i > 1
      invariant 0 <= i <= |cards| && |shuffled| == |cards|
      invariant Run(shuffled, draws, i) == Run(cards, draws, |cards|)
    {
      i := i - 1;
      shuffled := Swap(shuffled, i, draws[i]);
    }
  }

  /** Swapping inside a prefix commutes with taking the prefix. */
  lemma SwapInPrefix<T>(a: seq<T>, k: nat, i: nat, j: nat)
    requires i < k <= |a| && j < k
    ensures Swap(a, i, j)[..k] == Swap(a[..k], i, j)
  {
  }

  /** Equal multisets stay equal when the same last element is removed from both. */
  lemma DropSameLast<T>(x: seq<T>, y: seq<T>, e: T)
    requires multiset(x + [e]) == multiset(y + [e])
    ensures multiset(x) == multiset(y)
  {
    var m := multiset{e};
    assert multiset(x + [e]) == multiset(x) + m;
    assert multiset(y + [e]) == multiset(y) + m;
    assert multiset(x) == multiset(x) + m - m;
    assert multiset(y) == multiset(y) + m - m;
  }

  /** Moving the target's element for position `k - 1` into place from `j` leaves
      a prefix of length `k - 1` that is still a rearrangement of the target's. */
  lemma SwapIntoPlacePrefix<T>(a: seq<T>, p: seq<T>, k: nat, j: nat)
    requires |a| == |p| && 1 <= k <= |a| && j < k
    requires multiset(a[..k]) == multiset(p[..k])
    requires a[j] == p[k - 1]
    ensures multiset(Swap(a, k - 1, j)[..k - 1]) == multiset(p[..k - 1])
  {
    var i := k - 1;
    var a' := Swap(a, i, j);
    SwapInPrefix(a, k, i, j);
    SwapPermutes(a[..k], i, j);
    assert a'[..k] == a'[..i] + [p[i]];
    assert p[..k] == p[..i] + [p[i]];
    DropSameLast(a'[..i], p[..i], p[i]);
  }

  /** Every rearrangement of `a` is what the shuffle produces for some draw
      sequence. Stated for a prefix of length `k` that still has to be shuffled
      while the positions from `k` on already agree with the target; the draws
      are returned. */
  lemma {:induction false} RunReachesPrefix<T>(a: seq<T>, p: seq<T>, k: nat) returns (d: seq<nat>)
    requires |a| == |p| && k <= |a|
    requires multiset(a[..k]) == multiset(p[..k])
    requires forall t :: k <= t < |a| ==> a[t] == p[t]
    ensures DrawsFit(d, k) && Run(a, d, k) == p
    decreases k
  {
    if k <= 1 {
      if k == 1 {
        assert a[..1] == [a[0]] && p[..1] == [p[0]];
        assert a[0] in multiset(p[..1]);
      }
      d := seq(k, t => 0);
      assert a == p;
    } else {
      var i := k - 1;
      assert p[..k][i] == p[i];
      assert p[i] in multiset(p[..k]);
      assert p[i] in a[..k];
      var j :| 0 <= j < k && a[..k][j] == p[i];
      var a' := Swap(a, i, j);
      SwapIntoPlacePrefix(a, p, k, j);
      var d' := RunReachesPrefix(a', p, i);
      d := d' + [j];
      assert forall t :: 0 <= t < i ==> d[t] == d'[t];
      RunReadsPrefix(a', d', d, i);
    }
  }

  /** Surjectivity: any permutation `p` of `a` is the shuffle of `a` under some
      fitting draw sequence. */
  lemma ShuffleReachesEveryPermutation<T>(a: seq<T>, p: seq<T>)
    requires multiset(a) == multiset(p)
    ensures exists d: seq<nat> :: DrawsFit(d, |a|) && Shuffled(a, d) == p
  {
    assert |a| == |multiset(a)| == |multiset(p)| == |p|;
    assert a[..|a|] == a && p[..|p|] == p;
    var d := RunReachesPrefix(a, p, |a|);
    assert Shuffled(a, d) == p;
  }

  /** A swap of distinct elements leaves them distinct. */
  lemma SwapKeepsDistinct<T>(s: seq<T>, i: nat, j: nat)
    requires i < |s| && j < |s| && Distinct(s)
    ensures Distinct(Swap(s, i, j))
  {
  }

  /** Injectivity on the first `n` steps: with distinct elements, the same result
      means the same draws. */
  lemma {:induction false} RunInjective<T>(a: seq<T>, d1: seq<nat>, d2: seq<nat>, n: nat)
    requires Distinct(a)
    requires n <= |a| && n <= |d1| && n <= |d2| && Bounded(d1) && Bounded(d2)
    requires Run(a, d1, n) == Run(a, d2, n)
    ensures forall t :: 0 <= t < n ==> d1[t] == d2[t]
    decreases n
  {
    if n == 1 {
      assert d1[0] <= 0 && d2[0] <= 0;
    } else if n >= 2 {
      var i := n - 1;
      RunPlacesDrawn(a, d1, n);
      RunPlacesDrawn(a, d2, n);
      assert a[d1[i]] == a[d2[i]];
      SwapKeepsDistinct(a, i, d1[i]);
      RunInjective(Swap(a, i, d1[i]), d1, d2, i);
    }
  }

  /** On a list of distinct cards, fitting draw sequences that give the same order
      are the same sequence. With surjectivity this puts fitting draw sequences and
      orderings of the list in one-to-one correspondence. */
  lemma ShuffleInjective<T>(a: seq<T>, d1: seq<nat>, d2: seq<nat>)
    requires Distinct(a) && DrawsFit(d1, |a|) && DrawsFit(d2, |a|)
    requires Shuffled(a, d1) == Shuffled(a, d2)
    ensures d1 == d2
  {
    RunInjective(a, d1, d2, |a|);
  }
}

=== FILE: keyboard.dfy ===
/** The session's keyboard handler: Space turns the card over, `n`/`N` moves on,
    and the digits 1 to 4 score the current card through the sink. */
module Keyboard {
  import opened Cards
  import opened Cursor

  /** The closed set of recall scores; the sink alone gives them meaning. */
  datatype Score = Again | Hard | Good | Easy

  /** The label the sink receives for a score: its second argument. A `SinkCall`
      carries the `Score`, and the string sent is `Label` of it. */
  function Label(sc: Score): (l: string)
    ensures |l| >= 4
    ensures l == ["again", "hard", "good", "easy"][KeyOf(sc)[0] as int - '1' as int]
  {
    match sc
    case Again => "again"
    case Hard => "hard"
    case Good => "good"
    case Easy => "easy"
  }

  /** The digit key bound to a score; the score buttons show the same digit as
      their shortcut hint. */
  function KeyOf(sc: Score): (k: string)
    ensures |k| == 1 && '1' <= k[0] <= '4'
  {
    match sc
    case Again => "1"
    case Hard => "2"
    case Good => "3"
    case Easy => "4"
  }

  /** The handler's digit-to-score table: `1`..`4` in order, every other key nothing. */
  function ScoreOfKey(key: string): (r: Option<Score>)
    ensures r.Some? <==> key in ["1", "2", "3", "4"]
  {
    if key == "1" then Some(Again)
    else if key == "2" then Some(Hard)
    else if key == "3" then Some(Good)
    else if key == "4" then Some(Easy)
    else None
  }

  /** The table and the shortcut hints agree: a key selects a score exactly when
      it is that score's digit. */
  lemma ScoreOfKeyInvertsKeyOf(key: string, sc: Score)
    ensures ScoreOfKey(key) == Some(sc) <==> key == KeyOf(sc)
  {
  }

  /** The digits select the labels `again`, `hard`, `good` and `easy`, in that order. */
  lemma DigitLabels()
    ensures ScoreOfKey("1").Some? && Label(ScoreOfKey("1").value) == "again"
    ensures ScoreOfKey("2").Some? && Label(ScoreOfKey("2").value) == "hard"
    ensures ScoreOfKey("3").Some? && Label(ScoreOfKey("3").value) == "good"
    ensures ScoreOfKey("4").Some? && Label(ScoreOfKey("4").value) == "easy"
  {
  }

  /** Different scores reach the sink under different labels. */
  lemma LabelsDistinct(a: Score, b: Score)
    requires a != b
    ensures Label(a) != Label(b)
  {
  }

  /** A key press as the handler reads it: the physical key code (checked for
      Space) and the produced character (checked for `n`, `N` and the digits). */
  datatype KeyEvent = KeyEvent(code: string, key: string)

  /** One invocation of the sink: the card shown and the score given to it. */
  datatype SinkCall = SinkCall(card: Card, score: Score)

  /** What one key press does: the new session state, whether the browser's default
      action (scrolling, for Space) is suppressed, and the sink call it starts, if any. */
  datatype Reaction = Reaction(session: Session, preventDefault: bool, call: Option<SinkCall>)

  const SpaceCode: string := "Space"

  predicate IsNextKey(key: string) {
    key == "n" || key == "N"
  }

  /** The key handler. With no cards it ignores every key. Otherwise the three
      checks run one after another: Space flips, `n`/`N` moves on, and a digit
      starts a sink call for the card shown when a sink is present — the cursor
      itself moves only once that call settles. */
  function OnKey(s: Session, e: KeyEvent, hasSink: bool): (r: Reaction)
    ensures r.session.order == s.order
    ensures |s.order| == 0 ==> r == Reaction(s, false, None)
    ensures r.preventDefault <==> |s.order| > 0 && e.code == SpaceCode
    ensures r.call.Some? <==> hasSink && CurrentCard(s).Some? && ScoreOfKey(e.key).Some?
    ensures r.call.Some? ==> r.call.value.card == s.order[s.index]
    ensures r.call.Some? ==> KeyOf(r.call.value.score) == e.key
    ensures e.code != SpaceCode && !IsNextKey(e.key) ==> r.session == s
    ensures |s.order| > 0 && e.code == SpaceCode && !IsNextKey(e.key) ==> r.session == Flip(s)
    ensures |s.order| > 0 && e.code != SpaceCode && IsNextKey(e.key) ==> r.session == Next(s)
    ensures |s.order| > 0 && e.code == SpaceCode && IsNextKey(e.key) ==> r.session == Next(s)
  {
    if |s.order| == 0 then Reaction(s, false, None)
    else
      var afterSpace := if e.code == SpaceCode then Flip(s) else s;
      var afterNext := if IsNextKey(e.key) then Next(afterSpace) else afterSpace;
      var call :=
        match ScoreOfKey(e.key)
        case None => None
        case Some(sc) =>
          match CurrentCard(s)
          case None => None
          case Some(card) => if hasSink then Some(SinkCall(card, sc)) else None;
      Reaction(afterNext, e.code == SpaceCode, call)
  }

  /** A scoring key never moves the cursor or turns the card by itself. */
  lemma ScoreKeyLeavesCursor(s: Session, e: KeyEvent, hasSink: bool)
    requires ScoreOfKey(e.key).Some? && e.code != SpaceCode
    ensures OnKey(s, e, hasSink).session == s
  {
  }

  /** Without a sink, a scoring key does nothing at all. */
  lemma ScoreKeyWithoutSinkIsInert(s: Session, e: KeyEvent)
    requires ScoreOfKey(e.key).Some? && e.code != SpaceCode
    ensures OnKey(s, e, false) == Reaction(s, false, None)
  {
  }
}

=== FILE: ordering.dfy ===
/** The order a session presents: derived once from the `cards` property and the
    study mode, and recomputed only when either of them changes. */
module Ordering {
  import opened Cards
  import opened FisherYates

  /** The one mode that shuffles; every other value keeps the input order. */
  const RandomMode: string := "random"

  /** The mode a session uses when none is given. */
  const DefaultMode: string := "sequential"

  /** The draws a derivation needs: a fitting sequence when it shuffles, anything otherwise. */
  predicate DrawsFor(input: CardsInput, mode: string, draws: seq<nat>) {
    input.Array? && mode == RandomMode ==> DrawsFit(draws, |input.items|)
  }

  /** The order memo: no cards for a non-array input, the input itself outside
      random mode, and a Fisher–Yates shuffle of a copy of it in random mode. */
  function DeriveOrder(input: CardsInput, mode: string, draws: seq<nat>): (order: seq<Card>)
    requires DrawsFor(input, mode, draws)
    ensures input.NotArray? ==> order == []
    ensures input.Array? ==> |order| == |input.items|
    ensures input.Array? ==> multiset(order) == multiset(input.items)
    ensures input.Array? && mode != RandomMode ==> order == input.items
  {
    match input
    case NotArray => []
    case Array(items) =>
      if mode == RandomMode then Shuffled(items, draws) else items
  }

  /** In random mode every arrangement of the cards is a possible order. */
  lemma RandomModeReachesEveryArrangement(items: seq<Card>, arrangement: seq<Card>)
    requires multiset(arrangement) == multiset(items)
    ensures exists draws: seq<nat> :: DrawsFit(draws, |items|)
              && DeriveOrder(Array(items), RandomMode, draws) == arrangement
  {
    ShuffleReachesEveryPermutation(items, arrangement);
    var draws: seq<nat> :| DrawsFit(draws, |items|) && Shuffled(items, draws) == arrangement;
    assert DeriveOrder(Array(items), RandomMode, draws) == arrangement;
  }

  /** In random mode, on distinct cards, each fitting draw sequence gives its own
      order: no arrangement is produced by two of them. */
  lemma RandomModeDrawsDetermineOrder(items: seq<Card>, d1: seq<nat>, d2: seq<nat>)
    requires Distinct(items) && DrawsFit(d1, |items|) && DrawsFit(d2, |items|)
    requires DeriveOrder(Array(items), RandomMode, d1) == DeriveOrder(Array(items), RandomMode, d2)
    ensures d1 == d2
  {
    ShuffleInjective(items, d1, d2);
  }
}

=== FILE: review.dfy ===
/** The mounted review session as a whole: the cursor state together with the
    sink calls it has started, driven one discrete event at a time — key presses,
    button clicks, the settling of a sink call, and a change of the `cards` or
    `mode` property. */
module Review {
  import opened Cards
  import opened Ordering
  import opened Cursor
  import opened Keyboard

  /** How a sink call's promise settled. */
  datatype Outcome = Resolved | Rejected

  /** A sink call that has not settled yet. `advances` marks calls started from
      the keyboard, whose settlement runs `next`; `wrapLen` is the order length
      that this `next` closure saw when the key was pressed. */
  datatype InFlight = InFlight(call: SinkCall, advances: bool, wrapLen: nat)

  /** The session and its sink traffic: whether a sink is present, every call
      started so far (oldest first), the calls not yet settled, how many have
      settled, and how many rejections went unhandled. */
  datatype World = World(
    session: Session,
    hasSink: bool,
    calls: seq<SinkCall>,
    inFlight: seq<InFlight>,
    settled: nat,
    unhandled: nat)

  datatype Event =
    | KeyDown(e: KeyEvent)
    | FlipClick
    | NextClick
    | ScoreClick(score: Score)
    | Settle(k: nat, outcome: Outcome)
    | Reload(input: CardsInput, mode: string, draws: seq<nat>)

  /** Every call started has either settled or is still in flight. */
  predicate Balanced(w: World) {
    |w.calls| == w.settled + |w.inFlight|
  }

  /** The cursor is valid and every pending `next` wraps by the current order's length. */
  predicate Coherent(w: World) {
    && Valid(w.session)
    && forall f :: f in w.inFlight ==> f.wrapLen == |w.session.order|
  }

  /** An event the environment can deliver: a reload that shuffles brings fitting draws. */
  predicate Deliverable(ev: Event) {
    ev.Reload? ==> DrawsFor(ev.input, ev.mode, ev.draws)
  }

  /** Mounting: derive the order, start on its first card face up, no calls yet. */
  function MountWorld(input: CardsInput, mode: string, draws: seq<nat>, hasSink: bool): (w: World)
    requires DrawsFor(input, mode, draws)
    ensures Coherent(w) && Balanced(w)
    ensures w.session.index == 0 && !w.session.flipped
    ensures w.session.order == DeriveOrder(input, mode, draws)
    ensures w.calls == [] && w.hasSink == hasSink
  {
    World(Mount(DeriveOrder(input, mode, draws)), hasSink, [], [], 0, 0)
  }

  /** Start a sink call for the card shown, settling with or without `next`. */
  function Invoke(w: World, call: SinkCall, advances: bool): (r: World)
    ensures r.session == w.session && r.hasSink == w.hasSink
    ensures r.calls == w.calls + [call]
    ensures r.inFlight == w.inFlight + [InFlight(call, advances, |w.session.order|)]
    ensures r.settled == w.settled && r.unhandled == w.unhandled
  {
    w.(calls := w.calls + [call],
       inFlight := w.inFlight + [InFlight(call, advances, |w.session.order|)])
  }

  /** `s` without its element at `k`. */
  function Without<T>(s: seq<T>, k: nat): (r: seq<T>)
    requires k < |s|
    ensures |r| == |s| - 1
    ensures forall x :: x in r ==> x in s
  {
    s[..k] + s[k + 1..]
  }

  /** One event. */
  function Step(w: World, ev: Event): (r: World)
    requires Deliverable(ev)
    ensures r.hasSink == w.hasSink
    ensures Balanced(w) ==> Balanced(r)
    ensures w.calls <= r.calls && |r.calls| <= |w.calls| + 1
    ensures !w.hasSink ==> r.calls == w.calls
    ensures !ev.Reload? ==> r.session.order == w.session.order
    ensures ev.Reload? ==> r.session.index == w.session.index && r.session.flipped == w.session.flipped
    ensures ev.Reload? ==> r.inFlight == w.inFlight && r.calls == w.calls && r.settled == w.settled
    ensures ev.KeyDown? ==> r.session == OnKey(w.session, ev.e, w.hasSink).session
    ensures ev.KeyDown? ==>
              r.calls == w.calls + (var c := OnKey(w.session, ev.e, w.hasSink).call; if c.Some? then [c.value] else [])
    ensures ev.FlipClick? ==> r == w.(session := Flip(w.session))
    ensures ev.NextClick? ==> r == w.(session := Next(w.session))
    ensures r.unhandled == w.unhandled + (if ev.Settle? && ev.k < |w.inFlight| && ev.outcome == Rejected then 1 else 0)
  {
    match ev
    case KeyDown(e) =>
      var reaction := OnKey(w.session, e, w.hasSink);
      var w' := w.(session := reaction.session);
      if reaction.call.Some? then Invoke(w', reaction.call.value, true) else w'
    case FlipClick =>
      w.(session := Flip(w.session))
    case NextClick =>
      w.(session := Next(w.session))
    case ScoreClick(sc) =>
      var shown := CurrentCard(w.session);
      if w.hasSink && shown.Some? then Invoke(w, SinkCall(shown.value, sc), false) else w
    case Settle(k, outcome) =>
      if k < |w.inFlight| then
        var f := w.inFlight[k];
        World(
          if f.advances then Advance(w.session, f.wrapLen) else w.session,
          w.hasSink,
          w.calls,
          Without(w.inFlight, k),
          w.settled + 1,
          w.unhandled + (if outcome == Rejected then 1 else 0))
      else w
    case Reload(input, mode, draws) =>
      w.(session := w.session.(order := DeriveOrder(input, mode, draws)))
  }

  /** Every event except a reload keeps the cursor valid and the pending `next`
      calls in step with the order. */
  lemma StepKeepsCoherent(w: World, ev: Event)
    requires Coherent(w) && Deliverable(ev) && !ev.Reload?
    ensures Coherent(Step(w, ev))
  {
    var r := Step(w, ev);
    match ev
    case Settle(k, outcome) =>
      if k < |w.inFlight| {
        forall f | f in r.inFlight
          ensures f.wrapLen == |r.session.order|
        {
          assert f in w.inFlight;
        }
      }
    case _ =>
  }

  /** With no cards, no key does anything. */
  lemma KeysInertOnEmptyOrder(w: World, e: KeyEvent)
    requires |w.session.order| == 0
    ensures Step(w, KeyDown(e)) == w
  {
  }

  /** A scoring key with a sink and a card shown starts exactly one sink call, for
      that card and the key's score, and leaves the cursor alone until it settles. */
  lemma ScoreKeyStartsOneCall(w: World, e: KeyEvent, sc: Score)
    requires w.hasSink && w.session.index < |w.session.order|
    requires ScoreOfKey(e.key) == Some(sc) && e.code != SpaceCode
    ensures Step(w, KeyDown(e)).session == w.session
    ensures Step(w, KeyDown(e)).calls == w.calls + [SinkCall(w.session.order[w.session.index], sc)]
    ensures |Step(w, KeyDown(e)).inFlight| == |w.inFlight| + 1
  {
  }

  /** A scoring key without a sink leaves everything as it was. */
  lemma ScoreKeyWithoutSinkChangesNothing(w: World, e: KeyEvent)
    requires !w.hasSink && ScoreOfKey(e.key).Some? && e.code != SpaceCode
    ensures Step(w, KeyDown(e)) == w
  {
  }

  /** Settling a keyboard call runs its `next` closure exactly once, wrapping by
      the order length recorded when the key was pressed, whatever happened since;
      the call leaves the in-flight list, so it cannot run `next` again. When no
      reload intervened, that is `next` on the current order. */
  lemma SettleOfKeyCallAdvancesOnce(w: World, k: nat, outcome: Outcome)
    requires k < |w.inFlight| && w.inFlight[k].advances
    ensures Step(w, Settle(k, outcome)).session == Advance(w.session, w.inFlight[k].wrapLen)
    ensures Coherent(w) ==> Step(w, Settle(k, outcome)).session == Next(w.session)
    ensures |Step(w, Settle(k, outcome)).inFlight| == |w.inFlight| - 1
    ensures Step(w, Settle(k, outcome)).settled == w.settled + 1
    ensures multiset(Step(w, Settle(k, outcome)).inFlight) == multiset(w.inFlight) - multiset{w.inFlight[k]}
  {
    assert w.inFlight[k] in w.inFlight;
    assert w.inFlight == w.inFlight[..k] + [w.inFlight[k]] + w.inFlight[k + 1..];
  }

  /** Whether the sink resolves or rejects makes no difference to the session, the
      calls or the in-flight list; a rejection only adds an unhandled rejection. */
  lemma SettleIgnoresOutcome(w: World, k: nat)
    ensures Step(w, Settle(k, Rejected)).(unhandled := 0) == Step(w, Settle(k, Resolved)).(unhandled := 0)
  {
  }

  /** A scoring key, then the settling of the call it started, whatever the
      outcome: the sink saw the card shown and the key's score, and the session
      ends exactly one `next` further on, with nothing left in flight from it. */
  lemma ScoreKeyRoundTrip(w: World, e: KeyEvent, sc: Score, outcome: Outcome)
    requires w.hasSink && w.session.index < |w.session.order|
    requires ScoreOfKey(e.key) == Some(sc) && e.code != SpaceCode
    ensures var w1 := Step(w, KeyDown(e));
            var w2 := Step(w1, Settle(|w.inFlight|, outcome));
            && w2.session == Next(w.session)
            && w2.calls == w.calls + [SinkCall(w.session.order[w.session.index], sc)]
            && w2.inFlight == w.inFlight
  {
    var w1 := Step(w, KeyDown(e));
    assert w1.inFlight == w.inFlight + [InFlight(SinkCall(w.session.order[w.session.index], sc), true, |w.session.order|)];
    assert Without(w1.inFlight, |w.inFlight|) == w.inFlight;
  }

  /** A score button starts a sink call for the card shown but never moves the
      cursor, neither when clicked nor when its call settles. */
  lemma ScoreButtonNeverAdvances(w: World, sc: Score, outcome: Outcome)
    ensures Step(w, ScoreClick(sc)).session == w.session
    ensures Step(Step(w, ScoreClick(sc)), Settle(|w.inFlight|, outcome)).session == w.session
    ensures w.hasSink && w.session.index < |w.session.order| ==>
              Step(w, ScoreClick(sc)).calls == w.calls + [SinkCall(w.session.order[w.session.index], sc)]
  {
  }

  /** Changing the input recomputes the order but keeps the cursor and the face
      where they were, even beyond the end of a shorter new order. No card is shown
      then, and the render fails exactly when the new order is non-empty and no
      longer than the kept position. */
  lemma ReloadKeepsCursor(w: World, input: CardsInput, mode: string, draws: seq<nat>)
    requires DrawsFor(input, mode, draws)
    ensures var r := Step(w, Reload(input, mode, draws));
            && r.session.order == DeriveOrder(input, mode, draws)
            && r.session.index == w.session.index
            && r.session.flipped == w.session.flipped
            && (r.session.index >= |r.session.order| ==> CurrentCard(r.session).None?)
            && (!Renders(r.session) <==> 0 < |r.session.order| <= w.session.index)
  {
  }

  /** Three cards in sequential order; `n` twice shows the third card, front up. */
  lemma ThreeCardsTwoNexts(a: Card, b: Card, c: Card, hasSink: bool)
    ensures var w := MountWorld(Array([a, b, c]), DefaultMode, [], hasSink);
            var press := KeyDown(KeyEvent("KeyN", "n"));
            var w2 := Step(Step(w, press), press);
            CurrentCard(w2.session) == Some(c) && !w2.session.flipped
  {
  }

  /** One card, a sink that resolves: `3` sends the card with `good`, and after
      settling the cursor is back on the same card, front up. */
  lemma SingleCardScoredGood(a: Card)
    ensures var w := MountWorld(Array([a]), DefaultMode, [], true);
            var w1 := Step(w, KeyDown(KeyEvent("Digit3", "3")));
            var w2 := Step(w1, Settle(0, Resolved));
            && w1.calls == [SinkCall(a, Good)]
            && w2.session.index == 0 && !w2.session.flipped
            && w2.inFlight == []
  {
  }

  /** A sink that rejects: `1` still moves on to the next card once the call
      settles, and the rejection is left unhandled. */
  lemma RejectingSinkStillAdvances(a: Card, b: Card)
    ensures var w := MountWorld(Array([a, b]), DefaultMode, [], true);
            var w1 := Step(w, KeyDown(KeyEvent("Digit1", "1")));
            var w2 := Step(w1, Settle(0, Rejected));
            && w1.calls == [SinkCall(a, Again)]
            && CurrentCard(w2.session) == Some(b)
            && w2.unhandled == 1
  {
  }

  /** A settlement after a reload wraps by the order length its key press saw.
      Two cards, `1` pressed on the second; the list grows to five and `n` twice
      moves to the fourth card; the settling call then computes `(3 + 1) % 2` and
      lands on the first card. */
  lemma StaleSettlementWrapsByOldLength(a: Card, b: Card, c: Card)
    ensures var press := KeyDown(KeyEvent("KeyN", "n"));
            var w0 := Step(MountWorld(Array([a, b]), DefaultMode, [], true), press);
            var w1 := Step(w0, KeyDown(KeyEvent("Digit1", "1")));
            var w2 := Step(w1, Reload(Array([a, b, c, c, c]), DefaultMode, []));
            var w3 := Step(Step(w2, press), press);
            var w4 := Step(w3, Settle(0, Resolved));
            && w1.calls == [SinkCall(b, Again)]
            && w3.session.index == 3
            && w4.session.index == 0 && CurrentCard(w4.session) == Some(a)
  {
    var press := KeyDown(KeyEvent("KeyN", "n"));
    var w0 := Step(MountWorld(Array([a, b]), DefaultMode, [], true), press);
    assert w0.session == Session([a, b], 1, false) && w0.inFlight == [];
    var w1 := Step(w0, KeyDown(KeyEvent("Digit1", "1")));
    assert w1.inFlight == [InFlight(SinkCall(b, Again), true, 2)];
    var w2 := Step(w1, Reload(Array([a, b, c, c, c]), DefaultMode, []));
    assert w2.session == Session([a, b, c, c, c], 1, false);
    var w3 := Step(Step(w2, press), press);
    assert w3.session.index == 3 && w3.inFlight == w1.inFlight;
    SettleOfKeyCallAdvancesOnce(w3, 0, Resolved);
  }
}
